=== FILE: README.md ===
# smileStudio landing page — the behaviour under the markup, in Dafny

The photography studio's landing page (a Next.js client page) is mostly
markup and animation props. Underneath it sit a few exact rules and small
state machines, and this project models those and proves their properties:

- **Gallery marquee** (`GalleryLayout`). The viewport width picks 1, 2 or 3
  strips. The image list is dealt round-robin onto the strips, and an empty
  strip shows the whole list. Strips alternate direction and get a loop
  duration from their index. Every tile gets Ken Burns and pop timings from
  its index modulo 9, 5 and 7. Reduced motion switches all motion off. The
  track holds its content twice, the second copy repeating the first tile
  for tile.
- **Gallery modal** (`GalleryModal`). Image paths are `/<folder>/<NN>.<ext>`:
  the 1-based number is zero-padded to at least two digits, and the
  extension defaults to `webp`. The modal also chooses the active category
  by id, falling back to the first, and handles its open/close events.
- **Lightboxes** (`Lightbox`). Prev and next indices wrap around modulo the
  image count. The image lightbox's keydown handler maps Escape, ArrowLeft
  and ArrowRight to callbacks. The video lightbox opens on a reel and closes
  on Escape or ✕ only while open.
- **Viewport-aware images** (`LazyImage`). The `near` flag is one-shot and
  disconnects the observer, `loaded` is monotone, and an image loads eagerly
  when it has priority (`index < 2`, portfolio grid only) or is near.
- **Booking form** (`Booking`). The five-field payload defaults each field to
  `""`. Status goes idle/loading/ok/error. Only success resets the form, and
  the button is disabled while loading.
- **Album overlay** (`AlbumModal`). It is an Open/Closed machine over the page
  `overflow` value, a history stack and two listeners. Opening saves
  `overflow` and pushes one `{album:true}` entry. Every close path restores
  `overflow`, and `history.back()` runs only if the current entry is still
  an album entry.
- **Booking endpoint** (`BookRoute`). A falsy `name` or `email` gives
  `{ok:false, error:"Missing name/email"}` with status 400. Anything else
  gives `{ok:true}`.

`Common` holds `Option` (JavaScript `undefined`), the key type, JavaScript's
truncating `%` (`JsRem`) and the division lemmas behind the lane proofs.

Two details of the code:

- The image number is padded to *at least* two digits (`String(i+1).padStart(2,"0")`),
  so image 100 is `100`, not a two-digit number.
- The album cleanup tests the history *state* (`history.state?.album`), not a
  recorded depth. `AlbumModal.StaleAlbumEntryBackTwice` shows where the two differ.

## Model

| member | source | states |
|---|---|---|
| GalleryLayout.StripCount | app/components/GalleryModal.tsx:123-131 | 3 strips exactly from 1024 px, 2 exactly on [640,1024), 1 below 640; always in 1..3 |
| GalleryLayout.StripCountMonotone | app/components/GalleryModal.tsx:126 | a wider viewport never gets fewer strips |
| GalleryLayout.Lane | app/components/GalleryModal.tsx:136 | the filter keeps only images of the input and no more of them than it is given; a lane number beyond the strips gets nothing (order and exact contents: `LaneContents`) |
| GalleryLayout.Lanes | app/components/GalleryModal.tsx:134-138 | one lane per strip |
| GalleryLayout.LaneContents | app/components/GalleryModal.tsx:134-138 | lane k holds one image per index ≡ k (mod strips), counted index by index, and its j-th image is image k + j·strips, so original order is kept |
| GalleryLayout.LaneShape | app/components/GalleryModal.tsx:134-138 | the same in closed form: lane k holds n/strips images plus one if k < n mod strips |
| GalleryLayout.LanesBalanced | app/components/GalleryModal.tsx:134-138 | lane sizes differ by at most one, and a lower lane never holds fewer |
| GalleryLayout.LaneSizesSum | app/components/GalleryModal.tsx:134-138 | the lengths of the lanes actually produced add up to the number of images |
| GalleryLayout.ImageInExactlyOneLane | app/components/GalleryModal.tsx:134-138 | image i is at position i/strips of lane i mod strips, and no other lane position names index i |
| GalleryLayout.SplitRoundTrip | app/components/GalleryModal.tsx:134-138 | reading the lanes back in round-robin order restores the image list |
| GalleryLayout.LaneEmptyIff | app/components/GalleryModal.tsx:134-145 | lane k is empty exactly when there are at most k images |
| GalleryLayout.RenderedLane | app/components/GalleryModal.tsx:145 | a strip of a non-empty list is never empty: an empty lane is replaced by the whole list, and a lane below the image count is shown as is |
| GalleryLayout.LoopSeconds | app/components/GalleryModal.tsx:147 | 0 under reduced motion; otherwise 40, 34 or 28 s for lanes 0..2, positive up to lane 6 |
| GalleryLayout.LoopSecondsDecrease | app/components/GalleryModal.tsx:147 | higher lanes loop strictly faster |
| GalleryLayout.DirectionOf | app/components/GalleryModal.tsx:146 | even-numbered strips move left, odd-numbered ones right |
| GalleryLayout.MarqueeStrips | app/components/GalleryModal.tsx:140-150 | one prop record per strip: a non-empty list never gives an empty strip; strip k below the image count shows lane k, otherwise the whole list; strip k moves left iff k is even; its loop takes 40 − 6k s, or 0 under reduced motion |
| GalleryLayout.MarqueeStripsShape | app/components/GalleryModal.tsx:142-150 | every strip of a non-empty list shows images, neighbouring strips move in opposite directions, and speed is 0 exactly under reduced motion (else at least 28 s) |
| GalleryLayout.AnimateX | app/components/GalleryModal.tsx:171-172 | left strips go 0% to −50%, right strips −50% to 0%; both span exactly half the track |
| GalleryLayout.AnimateXMirror | app/components/GalleryModal.tsx:171-172 | the two directions play the same keyframes in reverse |
| GalleryLayout.TrackOf | app/components/GalleryModal.tsx:185-190 | no track animation under reduced motion; otherwise the direction's keyframes with the strip's loop duration |
| GalleryLayout.TileMotionAt | app/components/GalleryModal.tsx:242-281 | both motion layers absent exactly under reduced motion; Ken Burns delay in [0,2] s (quarters 0..8) and duration in [14,18] s; pop lasts 1.2 s with delay in [3,9] s and repeat delay in [6,10] s |
| GalleryLayout.TileMotionPeriodic | app/components/GalleryModal.tsx:242-276 | Ken Burns delay repeats every 9 tiles, its duration and the pop repeat delay every 5, pop delay every 7; all timings together every 315 |
| GalleryLayout.NeighboursDesynchronised | app/components/GalleryModal.tsx:242-274 | adjacent tiles never share a Ken Burns delay or a pop delay |
| GalleryLayout.StripContent | app/components/GalleryModal.tsx:201-225 | one tile per image in list order, tile i carrying image i and index i, with motion decided by its index and switched off exactly under reduced motion |
| GalleryLayout.TrackTiles | app/components/GalleryModal.tsx:192-194 | the track holds twice as many tiles as the strip has images |
| GalleryLayout.TrackSeamless | app/components/GalleryModal.tsx:192-222 | the second copy repeats the first, tile for tile: tile t and tile t + n carry the same image, index and motion |
| GalleryModal.Decimal | app/components/GalleryModal.tsx:51 | `String(n)` is a non-empty digit string with no leading zero (except for 0), one digit exactly below 10 |
| GalleryModal.DecimalRoundTrip | app/components/GalleryModal.tsx:51 | reading the digits of `String(n)` gives back n |
| GalleryModal.PadStart | app/components/GalleryModal.tsx:51 | `padStart` keeps the string whole as a suffix, fills only in front, and reaches at least the target length |
| GalleryModal.LeadingZerosValue | app/components/GalleryModal.tsx:51 | zero padding does not change the number a digit string denotes |
| GalleryModal.NumberPartShape | app/components/GalleryModal.tsx:51 | the file number has length max(2, digits of i+1), one leading zero for 1..9, none from 10 on, and denotes i+1 |
| GalleryModal.ImagePath | app/components/GalleryModal.tsx:50-53 | the path is `/`folder`/`, then a digit string denoting i+1 that is exactly two characters long below 10 and exactly as long as `String(i+1)` from 10 on, then `.`extension |
| GalleryModal.ImagePathRoundTrip | app/components/GalleryModal.tsx:50-53 | the path of position i parses back, under the same folder and extension, as image number i+1 |
| GalleryModal.ParsedPathIsBuilt | app/components/GalleryModal.tsx:50-53 | conversely, a path that parses as number v is exactly the path built for position v−1: no other zero-padding is accepted |
| GalleryModal.ImagePathsDistinct | app/components/GalleryModal.tsx:50-53 | different positions of a category get different paths |
| GalleryModal.ImagePaths | app/components/GalleryModal.tsx:47-55 | exactly `count` paths, the i-th of which parses as number i+1 with the category's extension (default webp), hence (by `ParsedPathIsBuilt`) is exactly `/`folder`/` + `String(i+1).padStart(2,"0")` + `.`extension |
| GalleryModal.BirthdayFirstPath | app/components/GalleryModal.tsx:46-53 | the birthday category's first path is `/birthday/01.webp` |
| GalleryModal.BirthdaySeventeenthPath | app/components/GalleryModal.tsx:46-53 | its seventeenth path is `/birthday/17.webp` |
| GalleryModal.FindById | app/components/GalleryModal.tsx:43 | the first category whose id matches, or none when no id matches |
| GalleryModal.InitialActiveId | app/components/GalleryModal.tsx:28 | the default id when given (even if it names no category), else the first category's id, else undefined |
| GalleryModal.ActiveCategory | app/components/GalleryModal.tsx:43-44 | nothing exactly when there are no categories; the first category carrying the active id when one exists, else the first category |
| GalleryModal.PillSelectsCategory | app/components/GalleryModal.tsx:76-84 | with distinct ids, clicking a category's pill in the open modal keeps it open and makes exactly that category active |
| GalleryModal.InitialCategory | app/components/GalleryModal.tsx:28-44 | without a default id, or with one that names no category, the modal opens on the first category |
| GalleryModal.GalleryStep | app/components/GalleryModal.tsx:30-96 | closed: nothing reacts; open: Escape closes (even with no categories), backdrop and ✕ close, content clicks and other keys do nothing, a pill click keeps the modal open and sets the active id to the pill's id, and nothing else changes the active id |
| GalleryModal.GalleryClosePathsAgree | app/components/GalleryModal.tsx:31-91 | Escape, ✕ and backdrop give the same closed state and keep the active category |
| GalleryModal.GalleryView | app/components/GalleryModal.tsx:43-105 | renders exactly when open with a category: the marquee strips (one per breakpoint strip) dealt from the active category's image paths in order, each strip non-empty iff the category has images |
| Common.JsRem | app/page.tsx:431-432 | JavaScript remainder: differs from the dividend by a multiple of the divisor, sign follows the dividend, magnitude below the divisor; equal to the Euclidean one for non-negative operands |
| Lightbox.NextIndex | app/page.tsx:432 | stays in [0,n): i+1 below the last image, 0 after the last |
| Lightbox.PrevIndex | app/page.tsx:431 | stays in [0,n): i−1 above the first image, n−1 before the first |
| Lightbox.PrevNextInverse | app/page.tsx:431-432 | next undoes prev and prev undoes next |
| Lightbox.NextTimesAdvance | app/page.tsx:432 | k presses of next from i land on (i+k) mod n |
| Lightbox.NextFullCycle | app/page.tsx:432 | n presses of next return to the starting image |
| Lightbox.LightboxKeyCallbacks | app/page.tsx:461-469 | no callback while closed; while open Escape calls onClose, ArrowLeft onPrev, ArrowRight onNext, at most one per key |
| Lightbox.LightboxStep | app/page.tsx:411-482 | a figure click opens on that image; while closed nothing else reacts; keys act as above; while open, ✕ closes and ← / → step to the previous / next index; the index stays valid |
| Lightbox.LightboxRunValid | app/page.tsx:371-433 | from any valid state, no sequence of events makes the index leave the image list |
| Lightbox.LightboxFromInitial | app/page.tsx:371-433 | from the closed lightbox the page starts with, any event sequence keeps the index inside the image list |
| Lightbox.LightboxImage | app/page.tsx:471-486 | an image is shown exactly while open, and it is one of the list |
| Lightbox.VideoKeyCallbacks | app/page.tsx:285-289 | Escape calls onClose exactly while open; nothing otherwise |
| Lightbox.VideoStep | app/page.tsx:245-294 | a reel card opens on that reel; Escape and ✕ close only while open; other keys change nothing; the active reel stays valid |
| Lightbox.VideoView | app/page.tsx:270-297 | nothing while closed, else the active reel |
| LazyImage.ImageStep | app/page.tsx:314-349 | near and loaded never revert; near turns true only on the first intersecting callback while observing, which disconnects the observer; load completion, and only it, sets loaded; unmounting disconnects the observer |
| LazyImage.ImageRunMonotone | app/page.tsx:318-333 | over any event sequence near and loaded stay true once true, and the observer is never connected while near |
| LazyImage.NearNeedsIntersection | app/page.tsx:322-327 | without an intersecting callback an image never becomes near |
| LazyImage.Eager | app/page.tsx:335 | loading is eager when the image has priority or is near the viewport (gallery tiles pass no priority) |
| LazyImage.EagerIff | app/page.tsx:335-417 | a portfolio image is eager iff index < 2 or near, a gallery tile iff near; at mount only the first two portfolio images are eager |
| LazyImage.EagerStaysEager | app/page.tsx:317-335 | once eager, a portfolio image stays eager |
| Booking.FormValue | app/page.tsx:662-666 | the form's entry for the key, or "" when the form has none |
| Booking.PayloadOf | app/page.tsx:661-667 | exactly the five fields name, email, phone, type, message, each the form value or "" when absent |
| Booking.PayloadReadsOnlyFieldNames | app/page.tsx:661-667 | forms that agree on the five fields give the same payload |
| Booking.BodyOf | app/page.tsx:669 | the request body is an object with exactly the five keys, each the payload string |
| Booking.Submit | app/page.tsx:656-667 | submit sets loading, leaves the form as it is, and sends the payload of the form |
| Booking.Settle | app/page.tsx:668-672 | ok exactly for a 2xx response, and then the form resets to its defaults; a non-ok response or a thrown error gives error and keeps the form |
| Booking.ResponseOk | app/page.tsx:670 | `res.ok`: a response with a 2xx status; a thrown fetch is never ok |
| Booking.ViewOf | app/page.tsx:695-700 | the button is disabled and reads "Sending…" exactly while loading; at most one message shows, and one does exactly after settling |
| Booking.BookingStep | app/page.tsx:656-695 | a press while loading does nothing (the button is disabled); otherwise it starts loading and sends the form's payload; a settle applies only to the request in flight and sends nothing |
| Booking.BookingRun | app/page.tsx:656-695 | over any run, requests sent minus requests settled goes from 1-or-0 to 1-or-0 exactly as the status goes from loading or not |
| Booking.AtMostOneInFlight | app/page.tsx:656-695 | from the initial form, at most one request is ever outstanding, and one is exactly while loading |
| Booking.SubmitCycleViews | app/page.tsx:693-700 | in flight: button disabled and reading "Sending…", no message; settled: button enabled, success message iff ok, error message iff not |
| Booking.SubmitThroughEndpoint | app/page.tsx:656-672 | a submit that reaches the endpoint succeeds (clearing the form) exactly when name and email are non-empty, else shows the error and keeps the entered values |
| BookRoute.Field | app/api/book/route.ts:9 | `data?.key` is defined only for an object body holding the key, and then is that value |
| BookRoute.Post | app/api/book/route.ts:9-13 | status 400 with `{ok:false, error:"Missing name/email"}` exactly when name or email is falsy, else `{ok:true}` with status 200 |
| BookRoute.OnlyNameAndEmailMatter | app/api/book/route.ts:9-13 | bodies that agree on name and email get the same reply: phone, type and message never matter |
| BookRoute.StringFieldsAccepted | app/api/book/route.ts:9-13 | with string fields the reply is ok exactly when both are non-empty, and a refusal always has status 400 |
| BookRoute.MissingNameRefused | app/api/book/route.ts:9-10 | a missing or empty name gives the 400 reply |
| BookRoute.MissingEmailRefused | app/api/book/route.ts:9-10 | a missing or empty email gives the 400 reply |
| AlbumModal.Back | app/components/AlbumModal.tsx:42 | back drops the current entry, or does nothing when it is the only one |
| AlbumModal.Opened | app/components/AlbumModal.tsx:16-36 | opening remembers the current overflow, hides it, installs both listeners and pushes one album entry |
| AlbumModal.CleanedUp | app/components/AlbumModal.tsx:21-43 | cleanup restores the saved overflow, removes both listeners, and goes back exactly when the current entry is an album entry |
| AlbumModal.Step | app/components/AlbumModal.tsx:15-44 | every event keeps the invariant (listeners exactly while open, overflow hidden while open); while closed only opening and browser Back change anything; while open, repeated opens and non-Escape keys change nothing |
| AlbumModal.Run | app/components/AlbumModal.tsx:15-44 | the invariant holds after any event sequence |
| AlbumModal.OpenPushesOneEntry | app/components/AlbumModal.tsx:33-34 | opening pushes exactly one entry, the album entry, on top of the unchanged stack |
| AlbumModal.OpenThenCloseRestores | app/components/AlbumModal.tsx:15-44 | open, then ✕, Escape or unmount restores overflow, listeners and the history stack exactly; browser Back does too unless a stale album entry was current at opening |
| AlbumModal.ClosePathsAgree | app/components/AlbumModal.tsx:29-42 | when the entry current at opening is not an album entry, all four close paths end in the same world |
| AlbumModal.InertRunKeepsOpen | app/components/AlbumModal.tsx:29 | keys other than Escape and repeated opens leave an open overlay unchanged |
| AlbumModal.SessionRestores | app/components/AlbumModal.tsx:15-44 | open, any inert events, then ✕, Escape or unmount: the page ends exactly as before; the same for browser Back unless a stale album entry was current at opening |
| AlbumModal.StaleAlbumEntryBackTwice | app/components/AlbumModal.tsx:35-42 | if the entry current at opening is already an album entry, closing by browser Back pops two entries, while closing by ✕ restores the stack |
| AlbumModal.ClosedIgnoresInput | app/components/AlbumModal.tsx:17-28 | while closed, keys, ✕ and unmounting change nothing |

## Left out

- Rendering is not modelled: JSX markup, Tailwind classes, strip heights and
  the blur/opacity classes that show `loaded`. They are presentation only.
- The animation engine is not modelled: keyframe interpolation, easing,
  springs, and the Ken Burns/pop keyframe values. Only durations, delays and
  whether a layer exists are modelled.
- Scroll-linked transforms in `Hero` and `BTS` are not modelled. They are
  continuous library numerics, and `BTS` is not mounted.
- Browser machinery is not modelled: the IntersectionObserver (its
  `rootMargin` of 360/420 px decides the `isIntersecting` input), the resize
  listener, keydown listener plumbing and `matchMedia`. Width and
  reduced-motion preference are inputs.
- GalleryLayout.StripCount: the first render, before the resize effect
  measures the window, uses 3 strips. The model starts from the measured width.
- The browser's constraint validation is not modelled. `required` on name
  and email can block a submit before `onSubmit` runs, so `Booking.Submit`
  models a submit the browser let through.
- Network and parsing are not modelled: `fetch` (an outcome parameter),
  `req.json()` failures (the framework handles them), `console.log` and
  `NextResponse` internals.
- BookRoute.Truthy: JSON numbers are integers here. NaN and fractional
  values are not modelled.
- Media side effects are not modelled: the flipbook iframe and its 50 ms
  fade timer, hero video autoplay, the poster `onError` fallback and the
  showreel's `scrollBy` buttons.
- Browser Forward navigation is not modelled. History is a stack whose top
  is the current entry, and back drops the top.
- AlbumModal.OpenThenCloseRestores: for browser Back it holds only when the entry current at
  opening is not an album entry; `StaleAlbumEntryBackTwice` states what
  happens otherwise.
- AlbumModal.SessionRestores: the same restriction, for the same reason, when
  the session ends with browser Back.
- GalleryModal.ImagePaths: the count is taken as a natural number, and the
  model is meant only for counts below 2^32. `Array.from` truncates a fractional length, treats a negative one as
  0 and throws for 2^32 or more, and `String(i + 1)` leaves plain digits
  from 10^21 on; none of that is modelled (the categories' counts are 16
  and 17).
- GalleryLayout.TrackSeamless: strip and tile widths are not modelled, so the −50%
  keyframe is taken to span exactly one copy of the content; the model proves
  only that the second copy repeats the first.
- The album effect re-running on a new `onClose` identity (dependencies
  `[open, onClose]`) is not modelled. The owner does not re-render while
  the overlay is open.
- `GalleryModal` calls `useMemo` after its early return, so its hook order
  changes if the category list empties. Not modelled: the list is constant.
- `next.config.ts` rewrites are not modelled. Next.js does the path
  matching, and that code is not part of this model.
- The static lists (reels, tiers, portfolio imports, categories) are not
  modelled. They appear only as concrete inputs, e.g. `BirthdayFirstPath`.

=== FILE: album_modal.dfy ===
/** The album flipbook overlay (app/components/AlbumModal.tsx) as a state
    machine over the page's `overflow` style, an abstract browser history
    stack and the two window listeners the overlay installs. */
module AlbumModal {

  /** A history entry's state: the overlay's own `{album: true}` entry, or
      any other entry (whose state has no `album` flag). */
  datatype HistoryEntry = AlbumEntry | PageEntry(tag: int)

  /** `Closed`, or `Open` remembering the `overflow` value it replaced. */
  datatype Phase = Closed | Open(savedOverflow: string)

  /** The overlay and the parts of the page it touches. `history` is the
      stack of entries up to the current one, which is last. */
  datatype World = World(
    phase: Phase,
    overflow: string,
    history: seq<HistoryEntry>,
    keyListener: bool,
    popListener: bool)

  /** A browser always has a current entry; listeners are installed exactly
      while open, and while open the page does not scroll. */
  predicate Valid(w: World) {
    && |w.history| > 0
    && (w.phase.Closed? ==> !w.keyListener && !w.popListener)
    && (w.phase.Open? ==> w.keyListener && w.popListener && w.overflow == "hidden")
  }

  datatype Event =
    | OpenAlbum          // the owner sets `open` to true
    | CloseButton        // the ✕ button calls onClose
    | KeyDown(escape: bool)
    | BrowserBack        // the user navigates back
    | Unmount            // the owner unmounts the overlay

  /** `history.back()`: the previous entry becomes current; with no previous
      entry nothing happens. */
  function Back(h: seq<HistoryEntry>): (h': seq<HistoryEntry>)
    requires |h| > 0
    ensures |h| > 1 ==> h' == h[..|h| - 1]
    ensures |h| == 1 ==> h' == h
  {
    if |h| > 1 then h[..|h| - 1] else h
  }

  /** Both effects run: save and replace `overflow`, add both listeners,
      push the `{album: true}` entry. */
  function Opened(w: World): (w': World)
    requires Valid(w) && w.phase.Closed?
    ensures Valid(w')
    ensures w'.phase == Open(w.overflow)
    ensures w'.history == w.history + [AlbumEntry]
  {
    World(Open(w.overflow), "hidden", w.history + [AlbumEntry], true, true)
  }

  /** Both cleanups run: `overflow` gets the saved value back, both listeners
      are removed, and `history.back()` is called only if the current entry
      is an album entry. */
  function CleanedUp(w: World): (w': World)
    requires Valid(w) && w.phase.Open?
    ensures Valid(w')
    ensures w'.phase.Closed? && w'.overflow == w.phase.savedOverflow
    ensures w.history[|w.history| - 1] == AlbumEntry ==> w'.history == Back(w.history)
    ensures w.history[|w.history| - 1] != AlbumEntry ==> w'.history == w.history
  {
    var h := if w.history[|w.history| - 1] == AlbumEntry then Back(w.history) else w.history;
    World(Closed, w.phase.savedOverflow, h, false, false)
  }

  /** One event. While closed only opening and browser navigation do
      anything; while open every close path ends in the cleanup. Browser
      Back first pops the current entry and then fires `popstate`, whose
      listener calls onClose. */
  function Step(w: World, e: Event): (w': World)
    requires Valid(w)
    ensures Valid(w')
    ensures w.phase.Closed? && e != OpenAlbum && e != BrowserBack ==> w' == w
    ensures w.phase.Open? && (e == OpenAlbum || e == KeyDown(false)) ==> w' == w
  {
    match w.phase
    case Closed =>
      (match e
       case OpenAlbum => Opened(w)
       case BrowserBack => w.(history := Back(w.history))
       case _ => w)
    case Open(_) =>
      (match e
       case OpenAlbum => w
       case CloseButton => CleanedUp(w)
       case KeyDown(escape) => if escape then CleanedUp(w) else w
       case BrowserBack => CleanedUp(w.(history := Back(w.history)))
       case Unmount => CleanedUp(w))
  }

  /** Events that close an open overlay. */
  predicate Closes(e: Event) {
    e == CloseButton || e == KeyDown(true) || e == BrowserBack || e == Unmount
  }

  /** Opening pushes exactly one entry, the album entry, and hides overflow. */
  lemma OpenPushesOneEntry(w: World)
    requires Valid(w) && w.phase.Closed?
    ensures |Step(w, OpenAlbum).history| == |w.history| + 1
    ensures Step(w, OpenAlbum).history[..|w.history|] == w.history
    ensures Step(w, OpenAlbum).history[|w.history|] == AlbumEntry
    ensures Step(w, OpenAlbum).overflow == "hidden"
    ensures Step(w, OpenAlbum).keyListener && Step(w, OpenAlbum).popListener
  {
  }

  /** Open, then close by any path: the overlay is closed, both listeners are
      gone, `overflow` is what it was before opening and the history stack is
      back to its depth and entries before opening. For browser Back this
      needs the entry current at opening not to be an album entry itself
      (see `StaleAlbumEntryBackTwice`). */
  lemma OpenThenCloseRestores(w: World, e: Event)
    requires Valid(w) && w.phase.Closed?
    requires Closes(e)
    requires e == BrowserBack ==> w.history[|w.history| - 1] != AlbumEntry
    ensures Step(Step(w, OpenAlbum), e) == w
  {
    var o := Step(w, OpenAlbum);
    assert o.history[..|o.history| - 1] == w.history;
  }

  /** When the entry current at opening is not an album entry, every close
      path from the same open state ends in the same world. (With a stale
      album entry browser Back differs: see `StaleAlbumEntryBackTwice`.) */
  lemma ClosePathsAgree(w: World)
    requires Valid(w) && w.phase.Closed?
    requires w.history[|w.history| - 1] != AlbumEntry
    ensures Step(Step(w, OpenAlbum), CloseButton) == Step(Step(w, OpenAlbum), KeyDown(true))
    ensures Step(Step(w, OpenAlbum), KeyDown(true)) == Step(Step(w, OpenAlbum), BrowserBack)
    ensures Step(Step(w, OpenAlbum), BrowserBack) == Step(Step(w, OpenAlbum), Unmount)
  {
    OpenThenCloseRestores(w, CloseButton);
    OpenThenCloseRestores(w, KeyDown(true));
    OpenThenCloseRestores(w, BrowserBack);
    OpenThenCloseRestores(w, Unmount);
  }

  function Run(w: World, es: seq<Event>): (w': World)
    requires Valid(w)
    ensures Valid(w')
    decreases |es|
  {
    if |es| == 0 then w else Run(Step(w, es[0]), es[1..])
  }

  /** Events that leave an open overlay as it is. */
  predicate Inert(e: Event) {
    e == OpenAlbum || e == KeyDown(false)
  }

  lemma {:induction false} InertRunKeepsOpen(w: World, es: seq<Event>)
    requires Valid(w) && w.phase.Open?
    requires forall k :: 0 <= k < |es| ==> Inert(es[k])
    ensures Run(w, es) == w
    decreases |es|
  {
    if |es| > 0 {
      assert Step(w, es[0]) == w;
      InertRunKeepsOpen(w, es[1..]);
    }
  }

  /** A whole overlay session: open, any number of key presses other than
      Escape (or repeated opens), then any close path; the page ends exactly
      as it was before (for browser Back, unless a stale album entry was
      current at opening). */
  lemma {:induction false} SessionRestores(w: World, middle: seq<Event>, close: Event)
    requires Valid(w) && w.phase.Closed?
    requires forall k :: 0 <= k < |middle| ==> Inert(middle[k])
    requires Closes(close)
    requires close == BrowserBack ==> w.history[|w.history| - 1] != AlbumEntry
    ensures Step(Run(Step(w, OpenAlbum), middle), close) == w
  {
    InertRunKeepsOpen(Step(w, OpenAlbum), middle);
    OpenThenCloseRestores(w, close);
  }

  /** When the entry current at opening is itself an album entry (a stale
      `{album: true}` entry, which survives a reload), closing by browser Back
      pops two entries: the browser pops the overlay's entry, and the cleanup
      then sees the stale album state and calls `history.back()` again. */
  lemma StaleAlbumEntryBackTwice(w: World)
    requires Valid(w) && w.phase.Closed?
    requires |w.history| > 1 && w.history[|w.history| - 1] == AlbumEntry
    ensures Step(Step(w, OpenAlbum), BrowserBack).history == w.history[..|w.history| - 1]
    ensures Step(Step(w, OpenAlbum), CloseButton).history == w.history
  {
    var o := Step(w, OpenAlbum);
    assert o.history[..|o.history| - 1] == w.history;
  }

  /** While closed, key presses, the close button and unmounting change
      nothing: no listener is installed. */
  lemma ClosedIgnoresInput(w: World, e: Event)
    requires Valid(w) && w.phase.Closed?
    requires e != OpenAlbum && e != BrowserBack
    ensures Step(w, e) == w
  {
  }
}

=== FILE: book_route.dfy ===
/** The booking endpoint `POST /api/book` (app/api/book/route.ts): the
    request body is parsed as JSON, `name` and `email` must be truthy, and
    the reply is `{ok:false, error}` with status 400 or `{ok:true}`. */
module BookRoute {
  import opened Common

  /** A parsed JSON value, as far as truthiness needs it. Numbers are
      integers here (no NaN). */
  datatype JsValue = JsString(s: string) | JsNumber(n: int) | JsBool(b: bool) | JsNull | JsObject | JsArray

  /** The parsed body: an object with its fields, or any other JSON value
      (`null`, a number, a string, an array), on which `data?.name` is
      `undefined`. */
  datatype Body = ObjectBody(fields: map<string, JsValue>) | OtherBody

  /** `data?.<key>`; `None` is `undefined`. */
  function Field(b: Body, key: string): (v: Option<JsValue>)
    ensures v.Some? <==> b.ObjectBody? && key in b.fields
    ensures v.Some? ==> v.value == b.fields[key]
  {
    match b
    case ObjectBody(fields) => if key in fields then Some(fields[key]) else None
    case OtherBody => None
  }

  /** JavaScript truthiness: `undefined`, `null`, `""`, `0` and `false` are
      falsy, everything else is truthy. */
  predicate Truthy(v: Option<JsValue>) {
    match v
    case None => false
    case Some(JsString(s)) => s != ""
    case Some(JsNumber(n)) => n != 0
    case Some(JsBool(b)) => b
    case Some(JsNull) => false
    case Some(JsObject) => true
    case Some(JsArray) => true
  }

  /** A JSON reply: HTTP status, the `ok` field and the optional `error`. */
  datatype Response = Response(status: nat, ok: bool, error: Option<string>)

  const MissingNameOrEmail := "Missing name/email"

  /** The handler, after logging the body. */
  function Post(body: Body): (r: Response)
    ensures r.status == 400 <==> !Truthy(Field(body, "name")) || !Truthy(Field(body, "email"))
    ensures r.status == 400 ==> !r.ok && r.error == Some(MissingNameOrEmail)
    ensures r.status != 400 ==> r == Response(200, true, None)
  {
    var data := body;
    if !Truthy(Field(data, "name")) || !Truthy(Field(data, "email")) then
      Response(400, false, Some(MissingNameOrEmail))
    else
      Response(200, true, None)
  }

  /** Only `name` and `email` decide the reply; `phone`, `type`, `message`
      and any other field never change it. */
  lemma OnlyNameAndEmailMatter(b1: Body, b2: Body)
    requires Field(b1, "name") == Field(b2, "name")
    requires Field(b1, "email") == Field(b2, "email")
    ensures Post(b1) == Post(b2)
  {
  }

  /** For a body of strings (what the booking form sends) the check is
      "both non-empty". */
  lemma StringFieldsAccepted(fields: map<string, JsValue>, name: string, email: string)
    requires "name" in fields && fields["name"] == JsString(name)
    requires "email" in fields && fields["email"] == JsString(email)
    ensures Post(ObjectBody(fields)).ok <==> name != "" && email != ""
    ensures !Post(ObjectBody(fields)).ok <==> Post(ObjectBody(fields)).status == 400
  {
  }

  /** A body without `name`, or with an empty one, is refused. */
  lemma MissingNameRefused(fields: map<string, JsValue>)
    requires "name" !in fields || fields["name"] == JsString("")
    ensures Post(ObjectBody(fields)) == Response(400, false, Some(MissingNameOrEmail))
  {
  }

  /** A body without `email`, or with an empty one, is refused. */
  lemma MissingEmailRefused(fields: map<string, JsValue>)
    requires "email" !in fields || fields["email"] == JsString("")
    ensures Post(ObjectBody(fields)) == Response(400, false, Some(MissingNameOrEmail))
  {
  }
}

=== FILE: booking.dfy ===
/** The booking form (app/page.tsx, `Booking`): the payload built from the
    form, the four-state status, and what the form shows in each state. */
module Booking {
  import opened Common
  import BookRoute

  /* ---------------------------------------------------------------------
     Payload
     --------------------------------------------------------------------- */

  /** The form's entries by field name (`FormData`). */
  type Form = map<string, string>

  /** The JSON payload; `shootType` is the form's `type` field. */
  datatype Payload = Payload(name: string, email: string, phone: string, shootType: string, message: string)

  const FieldNames: seq<string> := ["name", "email", "phone", "type", "message"]

  /** `String(fd.get(key) ?? "")`. */
  function FormValue(form: Form, key: string): (v: string)
    ensures key in form ==> v == form[key]
    ensures key !in form ==> v == ""
  {
    if key in form then form[key] else ""
  }

  /** The payload field sent under `key`, if `key` is one of the five. */
  function PayloadField(p: Payload, key: string): Option<string> {
    if key == "name" then Some(p.name)
    else if key == "email" then Some(p.email)
    else if key == "phone" then Some(p.phone)
    else if key == "type" then Some(p.shootType)
    else if key == "message" then Some(p.message)
    else None
  }

  /** The payload of a submit: the five named fields, each the form's value
      or `""` when the form has no such entry; no other entry is sent. */
  function PayloadOf(form: Form): (p: Payload)
    ensures forall k :: k in FieldNames ==> PayloadField(p, k) == Some(if k in form then form[k] else "")
    ensures forall k :: k !in FieldNames ==> PayloadField(p, k).None?
  {
    Payload(FormValue(form, "name"), FormValue(form, "email"), FormValue(form, "phone"),
            FormValue(form, "type"), FormValue(form, "message"))
  }

  /** Entries other than the five never reach the payload. */
  lemma PayloadReadsOnlyFieldNames(f1: Form, f2: Form)
    requires forall k :: k in FieldNames ==> FormValue(f1, k) == FormValue(f2, k)
    ensures PayloadOf(f1) == PayloadOf(f2)
  {
    assert FieldNames[0] == "name" && FieldNames[1] == "email" && FieldNames[2] == "phone";
    assert FieldNames[3] == "type" && FieldNames[4] == "message";
  }

  /** `JSON.stringify(data)` as the endpoint reads it back. */
  function BodyOf(p: Payload): (b: BookRoute.Body)
    ensures b.ObjectBody? && b.fields.Keys == set k | k in FieldNames
    ensures forall k :: k in FieldNames ==>
              PayloadField(p, k).Some? && b.fields[k] == BookRoute.JsString(PayloadField(p, k).value)
  {
    BookRoute.ObjectBody(map[
      "name" := BookRoute.JsString(p.name),
      "email" := BookRoute.JsString(p.email),
      "phone" := BookRoute.JsString(p.phone),
      "type" := BookRoute.JsString(p.shootType),
      "message" := BookRoute.JsString(p.message)])
  }

  /* ---------------------------------------------------------------------
     Status machine
     --------------------------------------------------------------------- */

  datatype Status = Idle | Loading | Ok | Error

  datatype BookingState = BookingState(status: Status, form: Form)

  /** What `form.reset()` restores: the markup's defaults, empty inputs and
      the first shoot type. */
  const FormDefaults: Form := map["name" := "", "email" := "", "phone" := "", "type" := "Portrait", "message" := ""]

  const BookingInitial := BookingState(Idle, FormDefaults)

  /** How the `fetch` ended: a response with its HTTP status, or a thrown
      error. */
  datatype FetchOutcome = Responded(httpStatus: nat) | Thrown

  /** `res.ok`: a 2xx status. */
  function ResponseOk(o: FetchOutcome): (ok: bool)
    ensures o.Thrown? ==> !ok
    ensures o.Responded? ==> (ok <==> 200 <= o.httpStatus < 300)
  {
    o.Responded? && 200 <= o.httpStatus <= 299
  }

  /** The synchronous half of `onSubmit`: status becomes loading and the
      payload is read from the form, which is left as it is. */
  function Submit(s: BookingState): (r: (BookingState, Payload))
    ensures r.0.status == Loading
    ensures r.0.form == s.form
    ensures r.1 == PayloadOf(s.form)
  {
    (s.(status := Loading), PayloadOf(s.form))
  }

  /** The awaited half: an ok response shows success and resets the form; a
      non-ok response or a thrown error shows the error and keeps the form. */
  function Settle(s: BookingState, o: FetchOutcome): (s': BookingState)
    ensures s'.status == Ok <==> ResponseOk(o)
    ensures s'.status == Error <==> !ResponseOk(o)
    ensures ResponseOk(o) ==> s'.form == FormDefaults
    ensures !ResponseOk(o) ==> s'.form == s.form
  {
    if ResponseOk(o) then BookingState(Ok, FormDefaults) else s.(status := Error)
  }

  /** What the form shows for a status: whether the submit button is
      disabled, its text, and which of the two messages appears. */
  datatype View = View(submitDisabled: bool, buttonText: string, success: bool, error: bool)

  function ViewOf(s: Status): (v: View)
    ensures v.submitDisabled <==> s == Loading
    ensures v.buttonText == "Sending…" <==> s == Loading
    ensures !(v.success && v.error)
    ensures v.success || v.error <==> s == Ok || s == Error
  {
    View(s == Loading, if s == Loading then "Sending…" else "Send Request", s == Ok, s == Error)
  }

  /** Through a whole submit: while the request is in flight the button is
      disabled and reads "Sending…" and neither message shows; once it
      settles the button is enabled again, and exactly one message shows:
      success for an ok response, the error otherwise. */
  lemma SubmitCycleViews(s: BookingState, o: FetchOutcome)
    ensures var v := ViewOf(Submit(s).0.status);
            v.submitDisabled && v.buttonText == "Sending…" && !v.success && !v.error
    ensures var v := ViewOf(Settle(Submit(s).0, o).status);
            && !v.submitDisabled && v.buttonText == "Send Request"
            && (v.success <==> ResponseOk(o)) && (v.error <==> !ResponseOk(o))
  {
  }

  /** What can happen to the form: the user presses the submit button (or
      submits with Enter), or the request in flight settles. */
  datatype BookingEvent = SubmitPressed | Settled(outcome: FetchOutcome)

  /** One event, with the request it sends, if any. While loading the submit
      button is disabled, so pressing it (or pressing Enter, which is
      implicit submission through that button) does not reach `onSubmit`. A
      settle event only occurs for the request in flight. */
  function BookingStep(s: BookingState, e: BookingEvent): (r: (BookingState, Option<Payload>))
    ensures e == SubmitPressed && s.status == Loading ==> r == (s, None)
    ensures e == SubmitPressed && s.status != Loading ==>
              r.0.status == Loading && r.0.form == s.form && r.1 == Some(PayloadOf(s.form))
    ensures e.Settled? && s.status == Loading ==> r.0 == Settle(s, e.outcome) && r.1.None?
    ensures e.Settled? && s.status != Loading ==> r == (s, None)
  {
    match e
    case SubmitPressed =>
      if s.status == Loading then (s, None)
      else var (loading, p) := Submit(s); (loading, Some(p))
    case Settled(o) =>
      if s.status == Loading then (Settle(s, o), None) else (s, None)
  }

  /** The state after a run of events, how many requests were sent and how
      many settled. Exactly one request is outstanding while loading and none
      otherwise, so a second request is never sent while one is in flight. */
  function BookingRun(s: BookingState, es: seq<BookingEvent>): (r: (BookingState, nat, nat))
    ensures r.1 + (if s.status == Loading then 1 else 0) == r.2 + (if r.0.status == Loading then 1 else 0)
    decreases |es|
  {
    if |es| == 0 then (s, 0, 0)
    else
      var (s1, sent) := BookingStep(s, es[0]);
      var settled := if es[0].Settled? && s.status == Loading then 1 else 0;
      var (s2, n, m) := BookingRun(s1, es[1..]);
      (s2, n + (if sent.Some? then 1 else 0), m + settled)
  }

  /** From the initial form, every request sent has settled unless the form
      is loading, in which case exactly one is still in flight. */
  lemma AtMostOneInFlight(es: seq<BookingEvent>)
    ensures var (s, sent, settled) := BookingRun(BookingInitial, es);
            sent == settled + (if s.status == Loading then 1 else 0) && sent <= settled + 1
  {
  }

  /* ---------------------------------------------------------------------
     Form and endpoint together
     --------------------------------------------------------------------- */

  /** A submit whose request reaches the booking endpoint: success (and a
      cleared form) exactly when the name and the email are non-empty,
      otherwise the error message with the entered values kept. */
  lemma SubmitThroughEndpoint(s: BookingState)
    ensures var (loading, p) := Submit(s);
            var reply := BookRoute.Post(BodyOf(p));
            var done := Settle(loading, Responded(reply.status));
            && (done.status == Ok <==> FormValue(s.form, "name") != "" && FormValue(s.form, "email") != "")
            && (done.status == Ok ==> done.form == FormDefaults)
            && (done.status == Error ==> done.form == s.form)
  {
    var (loading, p) := Submit(s);
    var b := BodyOf(p);
    BookRoute.StringFieldsAccepted(b.fields, p.name, p.email);
  }
}

=== FILE: common.dfy ===
/** Small shared vocabulary: optional values (JavaScript `undefined`) and the
    JavaScript remainder operator. */
module Common {

  /** An optional value; `None` stands for `undefined`/`null`. */
  datatype Option<T> = None | Some(value: T) {

    /** The `??` operator: the value when present, else `default`. */
    function GetOr(default: T): T {
      match this
      case Some(v) => v
      case None => default
    }
  }

  /** The keys the page's keydown handlers look at. */
  datatype Key = Escape | ArrowLeft | ArrowRight | OtherKey

  function Abs(x: int): nat {
    if x < 0 then -x else x
  }

  /** JavaScript's `a % b` on integers: the remainder truncates toward zero, so
      its sign follows the dividend (Dafny's `%` is Euclidean instead). */
  function JsRem(a: int, b: int): (r: int)
    requires b != 0
    ensures a >= 0 ==> 0 <= r < Abs(b)
    ensures a < 0 ==> r <= 0 && r + Abs(b) > 0
    ensures a >= 0 && b > 0 ==> r == a % b
    ensures (a - r) % b == 0
  {
    var q, m := Abs(a) / Abs(b), Abs(a) % Abs(b);
    assert Abs(a) == q * Abs(b) + m;
    MultipleOfAbs(q, b);
    if a >= 0 then
      assert a - m == q * Abs(b);
      m
    else
      assert a + m == -(q * Abs(b));
      -m
  }

  /** Any multiple of `|b|`, and its negation, is a multiple of `b`. */
  lemma MultipleOfAbs(c: int, b: int)
    requires b != 0
    ensures (c * Abs(b)) % b == 0 && (-(c * Abs(b))) % b == 0
  {
    var s := Abs(b);
    assert -(c * s) == (-c) * s;
    DivModUnique(c * s, s, c, 0);
    DivModUnique(-(c * s), s, -c, 0);
    if b < 0 {
      ModNegDivisor(c * s, b);
      ModNegDivisor(-(c * s), b);
    }
  }

  /** The Euclidean remainder does not depend on the divisor's sign. */
  lemma ModNegDivisor(x: int, b: int)
    requires b < 0
    ensures x % b == x % -b
  {
    var q, r := x / b, x % b;
    assert x == b * q + r && 0 <= r < -b;
    assert b * q == (-q) * (-b);
    DivModUnique(x, -b, -q, r);
  }

  /* Integer division facts used by the round-robin lane proofs. */

  lemma MulSucc(a: int, s: int)
    ensures (a + 1) * s == a * s + s
  {
  }

  lemma {:induction false} MulGap(a: int, b: int, s: int)
    requires a > b && s > 0
    ensures a * s >= b * s + s
    decreases a - b
  {
    MulSucc(a - 1, s);
    if a - 1 > b {
      MulGap(a - 1, b, s);
    }
  }

  /** Quotient and remainder of `a` by `s` are the unique `q`, `r` with
      `a == q * s + r` and `0 <= r < s`. */
  lemma DivModUnique(a: int, s: int, q: int, r: int)
    requires s > 0 && 0 <= r < s && a == q * s + r
    ensures a / s == q && a % s == r
  {
    var q0, r0 := a / s, a % s;
    assert q0 * s + r0 == q * s + r;
    if q0 > q {
      MulGap(q0, q, s);
      assert false;
    } else if q0 < q {
      MulGap(q, q0, s);
      assert false;
    }
  }

  /** Going from `m` to `m + 1` either bumps the remainder or wraps it to 0 and
      bumps the quotient. */
  lemma DivModNext(m: nat, s: nat)
    requires s > 0
    ensures m % s == s - 1 ==> (m + 1) / s == m / s + 1 && (m + 1) % s == 0
    ensures m % s < s - 1 ==> (m + 1) / s == m / s && (m + 1) % s == m % s + 1
  {
    var q, r := m / s, m % s;
    assert m == q * s + r;
    if r == s - 1 {
      MulSucc(q, s);
      DivModUnique(m + 1, s, q + 1, 0);
    } else {
      DivModUnique(m + 1, s, q, r + 1);
    }
  }

  /** Adding `k` whole periods leaves the remainder unchanged. */
  lemma ModShift(i: nat, m: nat, k: nat)
    requires m > 0
    ensures (i + k * m) % m == i % m
  {
    var q := i / m;
    assert i == q * m + i % m;
    assert (q + k) * m == q * m + k * m;
    DivModUnique(i + k * m, m, q + k, i % m);
  }

  /** Integer division is monotone in the dividend. */
  lemma DivMono(i: nat, n: nat, s: nat)
    requires s > 0 && i <= n
    ensures i / s <= n / s
  {
    assert i == (i / s) * s + i % s;
    assert n == (n / s) * s + n % s;
    if i / s > n / s {
      MulGap(i / s, n / s, s);
      assert false;
    }
  }
}

=== FILE: gallery_layout.dfy ===
/** The marquee inside the gallery modal: how many strips a viewport gets, how
    the image list is dealt round-robin onto the strips, and the motion each
    strip and each tile receives (app/components/GalleryModal.tsx). */
module GalleryLayout {
  import opened Common

  /* ---------------------------------------------------------------------
     Breakpoints
     --------------------------------------------------------------------- */

  /** Number of strips for a viewport `w` pixels wide. */
  function StripCount(w: int): (n: nat)
    ensures 1 <= n <= 3
    ensures n == 3 <==> 1024 <= w
    ensures n == 2 <==> 640 <= w < 1024
    ensures n == 1 <==> w < 640
  {
    if w >= 1024 then 3 else if w >= 640 then 2 else 1
  }

  /** A wider viewport never gets fewer strips. */
  lemma StripCountMonotone(w1: int, w2: int)
    requires w1 <= w2
    ensures StripCount(w1) <= StripCount(w2)
  {
  }

  /* ---------------------------------------------------------------------
     Round-robin split
     --------------------------------------------------------------------- */

  /** `images.filter((_, i) => i % strips === lane)`, written as the filter
      walks: the last image is kept when its index falls in `lane`. */
  function Lane<T>(images: seq<T>, strips: nat, lane: nat): (r: seq<T>)
    requires strips > 0
    ensures |r| <= |images|
    ensures forall x :: x in r ==> x in images
    ensures lane >= strips ==> r == []
    decreases |images|
  {
    if |images| == 0 then []
    else
      var last := |images| - 1;
      Lane(images[..last], strips, lane) + (if last % strips == lane then [images[last]] else [])
  }

  /** All lanes, lane `k` at position `k`. */
  function Lanes<T>(images: seq<T>, strips: nat): (lanes: seq<seq<T>>)
    requires strips > 0
    ensures |lanes| == strips
  {
    seq(strips, k requires 0 <= k < strips => Lane(images, strips, k))
  }

  /** How many of the indices `0 .. n-1` are congruent to `lane` modulo
      `strips`: every lane gets `n / strips`, the first `n % strips` one more. */
  function LaneSize(n: nat, strips: nat, lane: nat): nat
    requires strips > 0
  {
    n / strips + (if lane < n % strips then 1 else 0)
  }

  /** Appending image `m` grows exactly lane `m % strips` by one. */
  lemma LaneSizeNext(m: nat, strips: nat, lane: nat)
    requires strips > 0 && lane < strips
    ensures LaneSize(m + 1, strips, lane) == LaneSize(m, strips, lane) + (if m % strips == lane then 1 else 0)
  {
    DivModNext(m, strips);
  }

  /** The image at index `m` lands at position `m / strips` of its lane. */
  lemma LastPosition(m: nat, strips: nat)
    requires strips > 0
    ensures LaneSize(m, strips, m % strips) == m / strips
    ensures m % strips + (m / strips) * strips == m
  {
  }

  /** Reference count: how many of the indices `0 .. n-1` are congruent to
      `lane` modulo `strips`, counted one index at a time. */
  function CongruentBelow(n: nat, strips: nat, lane: nat): nat
    requires strips > 0
  {
    if n == 0 then 0 else CongruentBelow(n - 1, strips, lane) + (if (n - 1) % strips == lane then 1 else 0)
  }

  /** The count has the closed form `LaneSize`. */
  lemma {:induction false} CongruentBelowSize(n: nat, strips: nat, lane: nat)
    requires strips > 0 && lane < strips
    ensures CongruentBelow(n, strips, lane) == LaneSize(n, strips, lane)
  {
    if n > 0 {
      CongruentBelowSize(n - 1, strips, lane);
      LaneSizeNext(n - 1, strips, lane);
    }
  }

  /** Lane `lane` holds one image per index congruent to `lane`, and its
      `j`-th image is the image at index `lane + j * strips` of the input:
      exactly the images whose index is congruent to `lane`, in their
      original order. */
  lemma {:induction false} LaneContents<T>(images: seq<T>, strips: nat, lane: nat)
    requires strips > 0 && lane < strips
    ensures |Lane(images, strips, lane)| == CongruentBelow(|images|, strips, lane)
    ensures forall j :: 0 <= j < |Lane(images, strips, lane)| ==>
              lane + j * strips < |images| && Lane(images, strips, lane)[j] == images[lane + j * strips]
    decreases |images|
  {
    if |images| > 0 {
      var m := |images| - 1;
      var prefix := images[..m];
      LaneContents(prefix, strips, lane);
      var l := Lane(images, strips, lane);
      var lp := Lane(prefix, strips, lane);
      if m % strips == lane {
        CongruentBelowSize(m, strips, lane);
        LastPosition(m, strips);
        assert l == lp + [images[m]];
        forall j | 0 <= j < |l|
          ensures lane + j * strips < |images| && l[j] == images[lane + j * strips]
        {
          if j < |lp| {
            assert l[j] == lp[j] == prefix[lane + j * strips];
          } else {
            assert j == m / strips;
          }
        }
      } else {
        assert l == lp;
      }
    }
  }

  /** The same in closed form: lane `lane` holds `n / strips` images, plus
      one when `lane < n % strips`. */
  lemma LaneShape<T>(images: seq<T>, strips: nat, lane: nat)
    requires strips > 0 && lane < strips
    ensures |Lane(images, strips, lane)| == LaneSize(|images|, strips, lane)
    ensures forall j :: 0 <= j < |Lane(images, strips, lane)| ==>
              lane + j * strips < |images| && Lane(images, strips, lane)[j] == images[lane + j * strips]
  {
    LaneContents(images, strips, lane);
    CongruentBelowSize(|images|, strips, lane);
  }

  /** The lanes are balanced: a lane holds at most one image more than any
      other, and a lower-numbered lane never holds fewer. */
  lemma LanesBalanced<T>(images: seq<T>, strips: nat, k1: nat, k2: nat)
    requires strips > 0 && k1 < strips && k2 < strips
    ensures |Lanes(images, strips)[k1]| <= |Lanes(images, strips)[k2]| + 1
    ensures k1 <= k2 ==> |Lanes(images, strips)[k2]| <= |Lanes(images, strips)[k1]|
  {
    LaneShape(images, strips, k1);
    LaneShape(images, strips, k2);
  }

  /** Sum of the first `k` lane sizes. */
  function SizesUpTo(n: nat, strips: nat, k: nat): nat
    requires strips > 0
  {
    if k == 0 then 0 else SizesUpTo(n, strips, k - 1) + LaneSize(n, strips, k - 1)
  }

  lemma {:induction false} SizesUpToClosed(n: nat, strips: nat, k: nat)
    requires strips > 0 && k <= strips
    ensures SizesUpTo(n, strips, k) == k * (n / strips) + (if k < n % strips then k else n % strips)
  {
    if k > 0 {
      SizesUpToClosed(n, strips, k - 1);
      MulSucc(k - 1, n / strips);
    }
  }

  /** Total length of the first `k` lanes. */
  function TotalLength<T>(lanes: seq<seq<T>>, k: nat): nat
    requires k <= |lanes|
  {
    if k == 0 then 0 else TotalLength(lanes, k - 1) + |lanes[k - 1]|
  }

  /** The first `k` lanes are as long as the closed-form sizes say. */
  lemma {:induction false} TotalLengthSizes<T>(images: seq<T>, strips: nat, k: nat)
    requires strips > 0 && k <= strips
    ensures TotalLength(Lanes(images, strips), k) == SizesUpTo(|images|, strips, k)
  {
    if k > 0 {
      TotalLengthSizes(images, strips, k - 1);
      LaneShape(images, strips, k - 1);
    }
  }

  /** The lanes' lengths add up to the number of images: no image is dropped
      and none is dealt twice. */
  lemma LaneSizesSum<T>(images: seq<T>, strips: nat)
    requires strips > 0
    ensures TotalLength(Lanes(images, strips), strips) == |images|
  {
    TotalLengthSizes(images, strips, strips);
    SizesUpToClosed(|images|, strips, strips);
    assert |images| == (|images| / strips) * strips + |images| % strips;
  }

  /** An index below `n` has a place in its lane of an `n`-image list. */
  lemma IndexFitsLane(i: nat, n: nat, strips: nat)
    requires strips > 0 && i < n
    ensures i / strips < LaneSize(n, strips, i % strips)
  {
    DivMono(i, n, strips);
    if i / strips == n / strips {
      assert i == (i / strips) * strips + i % strips;
      assert n == (n / strips) * strips + n % strips;
    }
  }

  /** Image `i` sits in lane `i % strips` at position `i / strips`, and no
      other lane position refers to it. */
  lemma ImageInExactlyOneLane<T>(images: seq<T>, strips: nat, i: nat, k: nat, j: nat)
    requires strips > 0 && i < |images| && k < strips
    ensures i / strips < |Lanes(images, strips)[i % strips]|
    ensures Lanes(images, strips)[i % strips][i / strips] == images[i]
    ensures k + j * strips == i <==> k == i % strips && j == i / strips
  {
    LaneShape(images, strips, i % strips);
    IndexFitsLane(i, |images|, strips);
    LastPosition(i, strips);
    if k + j * strips == i {
      DivModUnique(i, strips, j, k);
    }
  }

  /** Reads the lanes back into one list: index `i` comes from lane
      `i % |lanes|` at position `i / |lanes|`. */
  function Unsplit<T>(lanes: seq<seq<T>>, n: nat): seq<T>
    requires |lanes| > 0
    requires forall i :: 0 <= i < n ==> i / |lanes| < |lanes[i % |lanes|]|
  {
    seq(n, i requires 0 <= i < n => lanes[i % |lanes|][i / |lanes|])
  }

  /** Splitting round-robin and reading back restores the image list. */
  lemma SplitRoundTrip<T>(images: seq<T>, strips: nat)
    requires strips > 0
    ensures forall i :: 0 <= i < |images| ==> i / strips < |Lanes(images, strips)[i % strips]|
    ensures Unsplit(Lanes(images, strips), |images|) == images
  {
    forall i | 0 <= i < |images|
      ensures i / strips < |Lanes(images, strips)[i % strips]|
      ensures Lanes(images, strips)[i % strips][i / strips] == images[i]
    {
      ImageInExactlyOneLane(images, strips, i, 0, 0);
    }
  }

  /* ---------------------------------------------------------------------
     Strip props
     --------------------------------------------------------------------- */

  datatype Direction = Left | Right

  /** Props handed to one strip. `speed` is seconds per loop. */
  datatype StripProps<T> = StripProps(images: seq<T>, direction: Direction, speed: int, reduced: bool)

  /** A lane comes out empty exactly when there are no more images than its
      number, i.e. when the list is shorter than the lane count. */
  lemma LaneEmptyIff<T>(images: seq<T>, strips: nat, lane: nat)
    requires strips > 0 && lane < strips
    ensures |Lane(images, strips, lane)| == 0 <==> |images| <= lane
  {
    LaneShape(images, strips, lane);
    var n := |images|;
    if n < strips {
      DivModUnique(n, strips, 0, n);
    } else {
      DivModUnique(strips, strips, 1, 0);
      DivMono(strips, n, strips);
    }
  }

  /** An empty lane is rendered with the whole image list instead. */
  function RenderedLane<T>(images: seq<T>, strips: nat, lane: nat): (r: seq<T>)
    requires strips > 0 && lane < strips
    ensures |images| > 0 ==> |r| > 0
    ensures lane >= |images| ==> r == images
    ensures lane < |images| ==> r == Lanes(images, strips)[lane]
  {
    LaneEmptyIff(images, strips, lane);
    var laneImages := Lane(images, strips, lane);
    if |laneImages| > 0 then laneImages else images
  }

  /** Even strips move left, odd strips move right. */
  function DirectionOf(lane: nat): (d: Direction)
    ensures d == Left <==> lane % 2 == 0
  {
    if lane % 2 == 0 then Left else Right
  }

  /** Seconds per loop: 40 minus 6 per lane, or 0 under reduced motion. */
  function LoopSeconds(lane: nat, reduced: bool): (d: int)
    ensures reduced ==> d == 0
    ensures !reduced && lane < 3 ==> d in {40, 34, 28}
    ensures !reduced && lane <= 6 ==> d > 0
  {
    if reduced then 0 else 40 - lane * 6
  }

  /** Lower lanes loop more slowly than higher ones (when motion is on). */
  lemma LoopSecondsDecrease(l1: nat, l2: nat)
    requires l1 < l2
    ensures LoopSeconds(l2, false) < LoopSeconds(l1, false)
  {
  }

  /** The props `MarqueeStrips` gives each of its `strips` strips: strip `k`
      shows lane `k`, or the whole list when that lane is empty; even strips
      move left and odd ones right; the loop takes `40 - 6k` seconds, or is
      switched off (0) under reduced motion. */
  function MarqueeStrips<T>(images: seq<T>, strips: nat, reduced: bool): (ps: seq<StripProps<T>>)
    requires strips > 0
    ensures |ps| == strips
    ensures forall k :: 0 <= k < strips ==>
              && (|images| > 0 ==> |ps[k].images| > 0)
              && (k < |images| ==> ps[k].images == Lanes(images, strips)[k])
              && (k >= |images| ==> ps[k].images == images)
              && (ps[k].direction == Left <==> k % 2 == 0)
              && ps[k].speed == (if reduced then 0 else 40 - 6 * k)
              && ps[k].reduced == reduced
  {
    seq(strips, k requires 0 <= k < strips =>
      StripProps(RenderedLane(images, strips, k), DirectionOf(k), LoopSeconds(k, reduced), reduced))
  }

  /** Every strip of a non-empty list shows something; strip directions
      alternate; with at most three strips every loop duration is positive
      unless motion is reduced, in which case all are zero. */
  lemma MarqueeStripsShape<T>(images: seq<T>, strips: nat, reduced: bool, k: nat)
    requires 0 < strips <= 3 && k < strips
    ensures |images| > 0 ==> |MarqueeStrips(images, strips, reduced)[k].images| > 0
    ensures k + 1 < strips ==>
              MarqueeStrips(images, strips, reduced)[k].direction != MarqueeStrips(images, strips, reduced)[k + 1].direction
    ensures reduced <==> MarqueeStrips(images, strips, reduced)[k].speed == 0
    ensures !reduced ==> MarqueeStrips(images, strips, reduced)[k].speed >= 28
  {
    var ps := MarqueeStrips(images, strips, reduced);
    assert ps[k].speed == (if reduced then 0 else 40 - 6 * k);
    if k + 1 < strips {
      assert (ps[k].direction == Left <==> k % 2 == 0) && (ps[k + 1].direction == Left <==> (k + 1) % 2 == 0);
    }
  }

  /* ---------------------------------------------------------------------
     Track animation of one strip
     --------------------------------------------------------------------- */

  /** One linear, endlessly repeated translation of the track along x, from
      `fromPercent` to `toPercent` of its width, lasting `seconds`. */
  datatype TrackAnimation = TrackAnimation(fromPercent: int, toPercent: int, seconds: int)

  /** `animateX`: left-moving strips go from 0% to -50%, right-moving ones
      from -50% to 0%. */
  function AnimateX(d: Direction): (x: (int, int))
    ensures x.0 - x.1 == (if d == Left then 50 else -50)
    ensures {x.0, x.1} == {0, -50}
  {
    if d == Left then (0, -50) else (-50, 0)
  }

  /** The two directions play the same keyframes in reverse. */
  lemma AnimateXMirror()
    ensures AnimateX(Left).0 == AnimateX(Right).1 && AnimateX(Left).1 == AnimateX(Right).0
  {
  }

  /** The track's animation, absent under reduced motion. */
  function TrackOf<T>(p: StripProps<T>): (a: Option<TrackAnimation>)
    ensures a.None? <==> p.reduced
    ensures a.Some? ==> a.value.seconds == p.speed
    ensures a.Some? ==> (a.value.fromPercent, a.value.toPercent) == AnimateX(p.direction)
  {
    if p.reduced then None
    else
      var x := AnimateX(p.direction);
      Some(TrackAnimation(x.0, x.1, p.speed))
  }

  /* ---------------------------------------------------------------------
     Per-tile motion
     --------------------------------------------------------------------- */

  /** Ken Burns layer: delay in quarter seconds, duration in seconds. */
  datatype KenBurns = KenBurns(delayQuarters: nat, seconds: nat)

  /** Pop pulse: 1.2 s long, delay and repeat delay in seconds. */
  datatype Pop = Pop(durationTenths: nat, delay: nat, repeatDelay: nat)

  datatype TileMotion = TileMotion(kenBurns: Option<KenBurns>, pop: Option<Pop>)

  /** The motion layers of the tile at position `index` of a strip's content. */
  function TileMotionAt(index: nat, reduced: bool): (m: TileMotion)
    ensures reduced <==> m.kenBurns.None?
    ensures reduced <==> m.pop.None?
    ensures m.kenBurns.Some? ==> m.kenBurns.value.delayQuarters <= 8 && 14 <= m.kenBurns.value.seconds <= 18
    ensures m.pop.Some? ==> m.pop.value.durationTenths == 12 && 3 <= m.pop.value.delay <= 9 && 6 <= m.pop.value.repeatDelay <= 10
  {
    if reduced then TileMotion(None, None)
    else TileMotion(Some(KenBurns(index % 9, 14 + index % 5)), Some(Pop(12, 3 + index % 7, 6 + index % 5)))
  }

  /** Tile timings are periodic: the Ken Burns delay repeats every 9 tiles, the
      durations and repeat delays every 5, the pop delay every 7, so all of them
      together every 315 tiles. */
  lemma TileMotionPeriodic(index: nat, reduced: bool)
    ensures TileMotionAt(index + 315, reduced) == TileMotionAt(index, reduced)
    ensures !reduced ==> TileMotionAt(index + 9, reduced).kenBurns.value.delayQuarters
                         == TileMotionAt(index, reduced).kenBurns.value.delayQuarters
    ensures !reduced ==> TileMotionAt(index + 5, reduced).kenBurns.value.seconds
                         == TileMotionAt(index, reduced).kenBurns.value.seconds
    ensures !reduced ==> TileMotionAt(index + 7, reduced).pop.value.delay
                         == TileMotionAt(index, reduced).pop.value.delay
    ensures !reduced ==> TileMotionAt(index + 5, reduced).pop.value.repeatDelay
                         == TileMotionAt(index, reduced).pop.value.repeatDelay
  {
    ModShift(index, 9, 35);
    ModShift(index, 5, 63);
    ModShift(index, 7, 45);
    ModShift(index, 9, 1);
    ModShift(index, 5, 1);
    ModShift(index, 7, 1);
  }

  /** Neighbouring tiles never share a Ken Burns delay or a pop delay, so
      they do not move in step. */
  lemma NeighboursDesynchronised(index: nat)
    ensures TileMotionAt(index + 1, false).kenBurns.value.delayQuarters
            != TileMotionAt(index, false).kenBurns.value.delayQuarters
    ensures TileMotionAt(index + 1, false).pop.value.delay != TileMotionAt(index, false).pop.value.delay
  {
    DivModNext(index, 9);
    DivModNext(index, 7);
  }

  /* ---------------------------------------------------------------------
     Track content
     --------------------------------------------------------------------- */

  /** One rendered tile: its image, its index within its copy, its motion. */
  datatype Tile<T> = Tile(src: T, index: nat, motion: TileMotion)

  /** One `StripContent`: each image with its index. */
  function StripContent<T>(images: seq<T>, reduced: bool): (ts: seq<Tile<T>>)
    ensures |ts| == |images|
    ensures forall i :: 0 <= i < |ts| ==>
              && ts[i].src == images[i] && ts[i].index == i
              && (ts[i].motion.kenBurns.None? <==> reduced)
              && ts[i].motion == TileMotionAt(i, reduced)
  {
    seq(|images|, i requires 0 <= i < |images| => Tile(images[i], i, TileMotionAt(i, reduced)))
  }

  /** The moving track holds the strip content twice in a row. */
  function TrackTiles<T>(p: StripProps<T>): (ts: seq<Tile<T>>)
    ensures |ts| == 2 * |p.images|
  {
    StripContent(p.images, p.reduced) + StripContent(p.images, p.reduced)
  }

  /** The second copy repeats the first, tile for tile: tile `t` and tile
      `t + |images|` carry the same image, index and motion. */
  lemma TrackSeamless<T>(p: StripProps<T>, t: nat)
    requires t < |p.images|
    ensures TrackTiles(p)[t] == TrackTiles(p)[t + |p.images|]
    ensures TrackTiles(p)[t].src == p.images[t]
  {
  }
}

=== FILE: gallery_modal.dfy ===
/** The gallery modal: category records, the image paths built for the active
    category, which category is active, and the modal's open/close events
    (app/components/GalleryModal.tsx). */
module GalleryModal {
  import opened Common
  import opened GalleryLayout

  /* ---------------------------------------------------------------------
     Categories
     --------------------------------------------------------------------- */

  datatype Ext = Webp | Jpg | Jpeg | Png

  function ExtName(e: Ext): string {
    match e
    case Webp => "webp"
    case Jpg => "jpg"
    case Jpeg => "jpeg"
    case Png => "png"
  }

  /** A category of sequentially numbered images under `/<folder>/`; `title`
      is the source's `label` (a reserved word here). */
  datatype Category = Category(id: string, title: string, folder: string, count: nat, ext: Option<Ext>)

  /** `active.ext ?? "webp"`. */
  function ExtOf(c: Category): Ext {
    c.ext.GetOr(Webp)
  }

  /* ---------------------------------------------------------------------
     Decimal numbers and padding
     --------------------------------------------------------------------- */

  predicate IsDigit(c: char) {
    '0' <= c <= '9'
  }

  predicate AllDigits(s: string) {
    forall i :: 0 <= i < |s| ==> IsDigit(s[i])
  }

  function DigitChar(d: nat): (c: char)
    requires d < 10
    ensures IsDigit(c)
  {
    ('0' as int + d) as char
  }

  function DigitValue(c: char): nat
    requires IsDigit(c)
  {
    c as int - '0' as int
  }

  /** `String(n)` for a non-negative integer: its decimal digits, most
      significant first, with no leading zero. */
  function Decimal(n: nat): (s: string)
    ensures |s| >= 1 && AllDigits(s)
    ensures s[0] == '0' <==> n == 0
    ensures n < 10 <==> |s| == 1
    decreases n
  {
    if n < 10 then [DigitChar(n)] else Decimal(n / 10) + [DigitChar(n % 10)]
  }

  /** The number a string of decimal digits denotes. */
  function DigitsValue(s: string): nat
    requires AllDigits(s)
  {
    if |s| == 0 then 0 else DigitsValue(s[..|s| - 1]) * 10 + DigitValue(s[|s| - 1])
  }

  /** Reading back the decimal digits of `n` gives `n`. */
  lemma {:induction false} DecimalRoundTrip(n: nat)
    ensures DigitsValue(Decimal(n)) == n
    decreases n
  {
    if n >= 10 {
      var d := Decimal(n / 10);
      DecimalRoundTrip(n / 10);
      assert (d + [DigitChar(n % 10)])[..|d|] == d;
    }
  }

  /** `s.padStart(len, fill)` with a one-character filler: `fill` is repeated
      in front of `s` up to length `len`; a longer `s` is kept whole. */
  function PadStart(s: string, len: nat, fill: char): (r: string)
    ensures |r| == if |s| >= len then |s| else len
    ensures r[|r| - |s|..] == s
    ensures forall i :: 0 <= i < |r| - |s| ==> r[i] == fill
  {
    if |s| >= len then s else seq(len - |s|, _ => fill) + s
  }

  lemma {:induction false} ZerosValue(z: string)
    requires forall i :: 0 <= i < |z| ==> z[i] == '0'
    ensures AllDigits(z) && DigitsValue(z) == 0
  {
    if |z| > 0 {
      ZerosValue(z[..|z| - 1]);
    }
  }

  /** Leading zeros do not change the value of a digit string. */
  lemma {:induction false} LeadingZerosValue(z: string, s: string)
    requires forall i :: 0 <= i < |z| ==> z[i] == '0'
    requires AllDigits(s)
    ensures AllDigits(z + s) && DigitsValue(z + s) == DigitsValue(s)
    decreases |s|
  {
    if |s| == 0 {
      assert z + s == z;
      ZerosValue(z);
    } else {
      var s' := s[..|s| - 1];
      LeadingZerosValue(z, s');
      assert (z + s)[..|z + s| - 1] == z + s';
    }
  }

  /* ---------------------------------------------------------------------
     Image paths
     --------------------------------------------------------------------- */

  /** `String(i + 1).padStart(2, "0")`. */
  function NumberPart(i: nat): string {
    PadStart(Decimal(i + 1), 2, '0')
  }

  /** The file name number is at least two characters long, a single digit
      gets exactly one leading zero, and longer numbers are kept whole. */
  lemma NumberPartShape(i: nat)
    ensures |NumberPart(i)| == if i + 1 < 10 then 2 else |Decimal(i + 1)|
    ensures i + 1 < 10 ==> NumberPart(i) == ['0', DigitChar(i + 1)]
    ensures i + 1 >= 10 ==> NumberPart(i) == Decimal(i + 1)
    ensures AllDigits(NumberPart(i)) && DigitsValue(NumberPart(i)) == i + 1
  {
    var d := Decimal(i + 1);
    DecimalRoundTrip(i + 1);
    var r := NumberPart(i);
    LeadingZerosValue(r[..|r| - |d|], d);
    assert r == r[..|r| - |d|] + d;
  }

  /** `/<folder>/<NN>.<ext>` for the image at (zero-based) position `i`. */
  function ImagePath(folder: string, i: nat, ext: Ext): (p: string)
    ensures |p| == |folder| + 3 + (if i + 1 < 10 then 2 else |Decimal(i + 1)|) + |ExtName(ext)|
    ensures p[..|folder| + 2] == "/" + folder + "/"
    ensures p[|p| - |ExtName(ext)| - 1..] == "." + ExtName(ext)
    ensures var mid := p[|folder| + 2..|p| - |ExtName(ext)| - 1];
            AllDigits(mid) && DigitsValue(mid) == i + 1
  {
    var pre := "/" + folder + "/";
    var suf := "." + ExtName(ext);
    NumberPartShape(i);
    SliceThree(pre, NumberPart(i), suf);
    pre + NumberPart(i) + suf
  }

  /** Recovers the image number from a path of category folder `folder` and
      extension `ext`, if the path has that shape and spells its number the
      way the modal does (a positive number, padded to two digits and no
      further). */
  function ParseImagePath(path: string, folder: string, ext: Ext): Option<nat> {
    var pre := "/" + folder + "/";
    var suf := "." + ExtName(ext);
    if |path| < |pre| + |suf| || path[..|pre|] != pre || path[|path| - |suf|..] != suf then None
    else
      var mid := path[|pre|..|path| - |suf|];
      if |mid| > 0 && AllDigits(mid) && DigitsValue(mid) >= 1 && mid == NumberPart(DigitsValue(mid) - 1)
      then Some(DigitsValue(mid))
      else None
  }

  /** The three parts of `pre + mid + suf` can be sliced back out. */
  lemma SliceThree(pre: string, mid: string, suf: string)
    ensures (pre + mid + suf)[..|pre|] == pre
    ensures (pre + mid + suf)[|pre + mid + suf| - |suf|..] == suf
    ensures (pre + mid + suf)[|pre|..|pre + mid + suf| - |suf|] == mid
  {
  }

  /** The path built for position `i` reads back as image number `i + 1`. */
  lemma ImagePathRoundTrip(folder: string, i: nat, ext: Ext)
    ensures ParseImagePath(ImagePath(folder, i, ext), folder, ext) == Some(i + 1)
  {
    var pre, mid, suf := "/" + folder + "/", NumberPart(i), "." + ExtName(ext);
    var p := ImagePath(folder, i, ext);
    assert p == pre + mid + suf;
    SliceThree(pre, mid, suf);
    NumberPartShape(i);
    assert |mid| > 0 && AllDigits(mid) && DigitsValue(mid) - 1 == i;
  }

  /** Conversely, every path that parses is the path the modal builds for
      that number: no other spelling of a number is accepted. */
  lemma ParsedPathIsBuilt(path: string, folder: string, ext: Ext, v: nat)
    requires ParseImagePath(path, folder, ext) == Some(v)
    ensures v >= 1 && path == ImagePath(folder, v - 1, ext)
  {
    var pre := "/" + folder + "/";
    var suf := "." + ExtName(ext);
    var mid := path[|pre|..|path| - |suf|];
    assert path == path[..|pre|] + mid + path[|path| - |suf|..];
  }

  /** Different positions of one category get different paths. */
  lemma ImagePathsDistinct(folder: string, i: nat, j: nat, ext: Ext)
    requires i != j
    ensures ImagePath(folder, i, ext) != ImagePath(folder, j, ext)
  {
    ImagePathRoundTrip(folder, i, ext);
    ImagePathRoundTrip(folder, j, ext);
  }

  /** The image list of a category: one path per image, numbered from 1. */
  function ImagePaths(c: Category): (ps: seq<string>)
    ensures |ps| == c.count
    ensures forall i :: 0 <= i < |ps| ==> ParseImagePath(ps[i], c.folder, ExtOf(c)) == Some(i + 1)
  {
    var ps := seq(c.count, i requires 0 <= i < c.count => ImagePath(c.folder, i, ExtOf(c)));
    assert forall i :: 0 <= i < |ps| ==> ParseImagePath(ps[i], c.folder, ExtOf(c)) == Some(i + 1) by {
      forall i | 0 <= i < |ps| {
        ImagePathRoundTrip(c.folder, i, ExtOf(c));
      }
    }
    ps
  }

  /** The first birthday image. */
  lemma BirthdayFirstPath()
    ensures ImagePath("birthday", 0, Webp) == "/birthday/01.webp"
  {
    assert DigitChar(1) == '1';
    assert Decimal(1) == "1";
    assert PadStart("1", 2, '0') == "01";
    assert NumberPart(0) == "01";
  }

  /** The seventeenth birthday image. */
  lemma BirthdaySeventeenthPath()
    ensures ImagePath("birthday", 16, Webp) == "/birthday/17.webp"
  {
    assert 17 / 10 == 1 && 17 % 10 == 7;
    assert DigitChar(1) == '1' && DigitChar(7) == '7';
    assert Decimal(1) == ['1'];
    assert Decimal(17) == "17";
    assert PadStart("17", 2, '0') == "17";
    assert NumberPart(16) == "17";
  }

  /* ---------------------------------------------------------------------
     Active category
     --------------------------------------------------------------------- */

  /** `categories.findIndex((c) => c.id === id)`: the first position whose id
      is `id`. */
  function FindById(cats: seq<Category>, id: string): (r: Option<nat>)
    ensures r.Some? ==> r.value < |cats| && cats[r.value].id == id
    ensures r.Some? ==> forall k :: 0 <= k < r.value ==> cats[k].id != id
    ensures r.None? ==> forall k :: 0 <= k < |cats| ==> cats[k].id != id
  {
    if |cats| == 0 then None
    else if cats[0].id == id then Some(0)
    else match FindById(cats[1..], id)
      case None => None
      case Some(k) => Some(k + 1)
  }

  /** Initial `activeId`: `defaultId ?? categories[0]?.id`. */
  function InitialActiveId(defaultId: Option<string>, cats: seq<Category>): (r: Option<string>)
    ensures r.None? <==> defaultId.None? && |cats| == 0
    ensures defaultId.Some? ==> r == defaultId
    ensures defaultId.None? && |cats| > 0 ==> r == Some(cats[0].id)
  {
    if defaultId.Some? then defaultId
    else if |cats| > 0 then Some(cats[0].id)
    else None
  }

  /** `categories.find((c) => c.id === activeId) ?? categories[0]`. An
      undefined `activeId` matches no category. */
  function ActiveCategory(cats: seq<Category>, activeId: Option<string>): (r: Option<Category>)
    ensures r.None? <==> |cats| == 0
    ensures r.Some? ==> r.value in cats
    ensures activeId.Some? && (exists k :: 0 <= k < |cats| && cats[k].id == activeId.value) ==>
              r.Some? && r.value.id == activeId.value
    ensures (activeId.None? || forall k :: 0 <= k < |cats| ==> cats[k].id != activeId.value) && |cats| > 0 ==>
              r == Some(cats[0])
    ensures activeId.Some? && FindById(cats, activeId.value).Some? ==>
              r == Some(cats[FindById(cats, activeId.value).value])
  {
    var found := if activeId.Some? then FindById(cats, activeId.value) else None;
    match found
    case Some(k) => Some(cats[k])
    case None => if |cats| > 0 then Some(cats[0]) else None
  }

  predicate UniqueIds(cats: seq<Category>) {
    forall i, j :: 0 <= i < j < |cats| ==> cats[i].id != cats[j].id
  }

  /** With distinct ids, clicking a category's pill in the open modal keeps
      the modal open and makes exactly that category active. */
  lemma PillSelectsCategory(s: GalleryState, cats: seq<Category>, k: nat)
    requires UniqueIds(cats) && k < |cats| && s.open
    ensures GalleryStep(s, cats, PillClick(cats[k].id)).open
    ensures ActiveCategory(cats, GalleryStep(s, cats, PillClick(cats[k].id)).activeId) == Some(cats[k])
  {
    var r := FindById(cats, cats[k].id);
    assert r.Some?;
  }

  /** Without a default id the modal opens on the first category; with a
      default id that names no category it falls back to the first too. */
  lemma InitialCategory(cats: seq<Category>, defaultId: Option<string>)
    requires |cats| > 0
    requires defaultId.None? || forall k :: 0 <= k < |cats| ==> cats[k].id != defaultId.value
    ensures ActiveCategory(cats, InitialActiveId(defaultId, cats)) == Some(cats[0])
  {
    if defaultId.None? {
      var r := FindById(cats, cats[0].id);
      assert r.Some?;
    }
  }

  /* ---------------------------------------------------------------------
     Modal events and rendering
     --------------------------------------------------------------------- */

  /** `open` is owned by the page; `activeId` by the modal. */
  datatype GalleryState = GalleryState(open: bool, activeId: Option<string>)

  datatype GalleryEvent = KeyDown(key: Key) | BackdropClick | ContentClick | CloseButton | PillClick(id: string)

  /** One event. The Escape listener exists whenever the modal is open (it is
      installed before the empty-category check); the backdrop, the close
      button and the pills exist only while it is open and has a category.
      A click inside the content stops at the content. */
  function GalleryStep(s: GalleryState, cats: seq<Category>, e: GalleryEvent): (s': GalleryState)
    ensures !s.open ==> s' == s
    ensures s'.open ==> s'.open == s.open
    ensures s.open && e == KeyDown(Escape) ==> s' == s.(open := false)
    ensures s.open && |cats| > 0 && (e == BackdropClick || e == CloseButton) ==> s' == s.(open := false)
    ensures e == ContentClick || (e.KeyDown? && e.key != Escape) ==> s' == s
    ensures s'.activeId != s.activeId ==> e.PillClick? && s'.activeId == Some(e.id) && s.open && |cats| > 0
    ensures s.open && |cats| > 0 && e.PillClick? ==> s' == s.(activeId := Some(e.id))
  {
    if !s.open then s
    else match e
      case KeyDown(k) => if k == Escape then s.(open := false) else s
      case BackdropClick => if |cats| > 0 then s.(open := false) else s
      case CloseButton => if |cats| > 0 then s.(open := false) else s
      case ContentClick => s
      case PillClick(id) => if |cats| > 0 then s.(activeId := Some(id)) else s
  }

  /** Escape, the close button and the backdrop all leave the modal in the
      same closed state, with the active category kept. */
  lemma GalleryClosePathsAgree(s: GalleryState, cats: seq<Category>)
    requires s.open && |cats| > 0
    ensures GalleryStep(s, cats, KeyDown(Escape)) == GalleryStep(s, cats, CloseButton)
    ensures GalleryStep(s, cats, CloseButton) == GalleryStep(s, cats, BackdropClick)
    ensures !GalleryStep(s, cats, BackdropClick).open
    ensures GalleryStep(s, cats, BackdropClick).activeId == s.activeId
  {
  }

  /** What the modal renders: nothing without a category or while closed,
      else the marquee strips for the active category's images. */
  function GalleryView(s: GalleryState, cats: seq<Category>, width: int, reduced: bool)
    : (v: Option<seq<StripProps<string>>>)
    ensures v.Some? <==> s.open && |cats| > 0
    ensures v.Some? ==> |v.value| == StripCount(width)
    ensures v.Some? ==> forall k :: 0 <= k < |v.value| ==>
              (|v.value[k].images| > 0 <==> ActiveCategory(cats, s.activeId).value.count > 0)
    ensures v.Some? ==>
              v.value == MarqueeStrips(ImagePaths(ActiveCategory(cats, s.activeId).value), StripCount(width), reduced)
  {
    match ActiveCategory(cats, s.activeId)
    case None => None
    case Some(c) =>
      if !s.open then None
      else
        var images := ImagePaths(c);
        var strips := MarqueeStrips(images, StripCount(width), reduced);
        assert forall k :: 0 <= k < |strips| ==> (|strips[k].images| > 0 <==> c.count > 0) by {
          forall k | 0 <= k < |strips|
            ensures |strips[k].images| > 0 <==> c.count > 0
          {
            assert strips[k].images == RenderedLane(images, StripCount(width), k);
          }
        }
        Some(strips)
  }
}

=== FILE: lazy_image.dfy ===
/** The viewport-aware image of the portfolio grid (`BlurFadeImage`,
    app/page.tsx) and of the gallery tiles (`PrewarmFadeImage`,
    app/components/GalleryModal.tsx): a one-shot "near the viewport" flag, a
    "loaded" flag, and the eager-loading decision built on them. */
module LazyImage {

  /** The two flags plus whether the intersection observer is still
      connected. */
  datatype ImageState = ImageState(near: bool, loaded: bool, observing: bool)

  /** On mount: nothing seen, nothing loaded, the observer watching. */
  const Mounted := ImageState(false, false, true)

  /** An observer callback (the element's box, widened by the preload
      margin, does or does not meet the viewport), the image finishing
      loading, or the component unmounting. */
  datatype ImageEvent = Intersection(isIntersecting: bool) | LoadComplete | Unmount

  /** One event. The first intersecting callback sets `near` and disconnects
      the observer; a disconnected observer delivers nothing. Load completion
      sets `loaded`, and unmounting disconnects the observer. */
  function ImageStep(s: ImageState, e: ImageEvent): (s': ImageState)
    ensures s.near ==> s'.near
    ensures s.loaded ==> s'.loaded
    ensures !s.near && s'.near <==> !s.near && s.observing && e == Intersection(true)
    ensures s'.observing ==> s.observing && s'.near == s.near
    ensures s.observing && e == Intersection(true) ==> !s'.observing
    ensures s'.loaded != s.loaded ==> e == LoadComplete
    ensures e == LoadComplete ==> s'.loaded
    ensures e == Unmount ==> !s'.observing
  {
    match e
    case Intersection(hit) => if s.observing && hit then s.(near := true, observing := false) else s
    case LoadComplete => s.(loaded := true)
    case Unmount => s.(observing := false)
  }

  function ImageRun(s: ImageState, es: seq<ImageEvent>): ImageState
    decreases |es|
  {
    if |es| == 0 then s else ImageRun(ImageStep(s, es[0]), es[1..])
  }

  /** Once `near` is set the observer is gone. */
  predicate NearDisconnects(s: ImageState) {
    s.near ==> !s.observing
  }

  /** Over any run of events: `near` and `loaded` never go back to false,
      and the observer is never connected while `near` holds. */
  lemma {:induction false} ImageRunMonotone(s: ImageState, es: seq<ImageEvent>)
    requires NearDisconnects(s)
    ensures s.near ==> ImageRun(s, es).near
    ensures s.loaded ==> ImageRun(s, es).loaded
    ensures NearDisconnects(ImageRun(s, es))
    decreases |es|
  {
    if |es| > 0 {
      ImageRunMonotone(ImageStep(s, es[0]), es[1..]);
    }
  }

  /** A freshly mounted image is near only once some callback reported an
      intersection. */
  lemma {:induction false} NearNeedsIntersection(s: ImageState, es: seq<ImageEvent>)
    requires !s.near
    requires forall k :: 0 <= k < |es| ==> es[k] != Intersection(true)
    ensures !ImageRun(s, es).near
    decreases |es|
  {
    if |es| > 0 {
      NearNeedsIntersection(ImageStep(s, es[0]), es[1..]);
    }
  }

  /** Loading is eager (`loading="eager"`, high fetch priority) when the
      image has priority or is near the viewport. */
  function Eager(priority: bool, s: ImageState): (eager: bool)
    ensures priority ==> eager
    ensures !priority ==> (eager <==> s.near)
  {
    priority || s.near
  }

  /** The portfolio grid gives priority to its first two images; gallery
      tiles have none (their `eager` is `near` alone). */
  function PortfolioPriority(index: nat): bool {
    index < 2
  }

  /** A portfolio image loads eagerly iff it is one of the first two or near
      the viewport; a gallery tile iff it is near. From mount, only the first
      two portfolio images are eager. */
  lemma EagerIff(index: nat, s: ImageState)
    ensures Eager(PortfolioPriority(index), s) <==> index < 2 || s.near
    ensures Eager(false, s) <==> s.near
    ensures Eager(PortfolioPriority(index), Mounted) <==> index < 2
  {
  }

  /** Once a portfolio image has turned eager it stays eager for the rest of
      its life. */
  lemma EagerStaysEager(index: nat, s: ImageState, es: seq<ImageEvent>)
    requires NearDisconnects(s)
    requires Eager(PortfolioPriority(index), s)
    ensures Eager(PortfolioPriority(index), ImageRun(s, es))
  {
    ImageRunMonotone(s, es);
  }
}

=== FILE: lightbox.dfy ===
/** The portfolio image lightbox and the showreel video lightbox
    (app/page.tsx): index wrap-around, keyboard handling and open/close. */
module Lightbox {
  import opened Common

  /* ---------------------------------------------------------------------
     Index arithmetic
     --------------------------------------------------------------------- */

  /** `onNext`: `(lbIndex + 1) % images.length`. */
  function NextIndex(i: int, n: nat): (r: int)
    requires n > 0
    ensures 0 <= i < n ==> 0 <= r < n
    ensures 0 <= i < n - 1 ==> r == i + 1
    ensures i == n - 1 ==> r == 0
  {
    JsRem(i + 1, n)
  }

  /** `onPrev`: `(lbIndex - 1 + images.length) % images.length`. */
  function PrevIndex(i: int, n: nat): (r: int)
    requires n > 0
    ensures 0 <= i < n ==> 0 <= r < n
    ensures 0 < i < n ==> r == i - 1
    ensures i == 0 ==> r == n - 1
  {
    JsRem(i - 1 + n, n)
  }

  /** Previous and next undo each other. */
  lemma PrevNextInverse(i: int, n: nat)
    requires 0 <= i < n
    ensures NextIndex(PrevIndex(i, n), n) == i
    ensures PrevIndex(NextIndex(i, n), n) == i
  {
  }

  /** `k` presses of next, starting from `i`. */
  function NextTimes(i: int, k: nat, n: nat): int
    requires n > 0
  {
    if k == 0 then i else NextIndex(NextTimes(i, k - 1, n), n)
  }

  /** `k` presses of next move `k` places forward, cyclically. */
  lemma {:induction false} NextTimesAdvance(i: int, k: nat, n: nat)
    requires 0 <= i < n
    ensures NextTimes(i, k, n) == (i + k) % n
  {
    if k > 0 {
      NextTimesAdvance(i, k - 1, n);
      DivModNext(i + k - 1, n);
    }
  }

  /** Pressing next as many times as there are images comes back to the
      starting image. */
  lemma NextFullCycle(i: int, n: nat)
    requires 0 <= i < n
    ensures NextTimes(i, n, n) == i
  {
    NextTimesAdvance(i, n, n);
    ModShift(i, n, 1);
    DivModUnique(i, n, 0, i);
  }

  /* ---------------------------------------------------------------------
     Image lightbox
     --------------------------------------------------------------------- */

  datatype Callback = OnClose | OnPrev | OnNext

  /** The callbacks the lightbox's keydown handler calls for `key`; the
      handler is installed only while the lightbox is open. */
  function LightboxKeyCallbacks(open: bool, key: Key): (cs: seq<Callback>)
    ensures !open ==> cs == []
    ensures |cs| <= 1
    ensures open ==> (cs == [OnClose] <==> key == Escape)
    ensures open ==> (cs == [OnPrev] <==> key == ArrowLeft)
    ensures open ==> (cs == [OnNext] <==> key == ArrowRight)
  {
    if !open then []
    else
      var onEscape := if key == Escape then [OnClose] else [];
      var onLeft := if key == ArrowLeft then [OnPrev] else [];
      var onRight := if key == ArrowRight then [OnNext] else [];
      assert key == Escape ==> onEscape + onLeft + onRight == [OnClose];
      assert key == ArrowLeft ==> onEscape + onLeft + onRight == [OnPrev];
      assert key == ArrowRight ==> onEscape + onLeft + onRight == [OnNext];
      assert key == OtherKey ==> onEscape + onLeft + onRight == [];
      onEscape + onLeft + onRight
  }

  /** `lbOpen` and `lbIndex` of the portfolio section. */
  datatype LightboxState = LightboxState(open: bool, index: int)

  datatype LightboxEvent =
    | ClickImage(i: int)   // a figure of the masonry grid
    | KeyDown(key: Key)
    | CloseButton
    | PrevButton
    | NextButton

  const LightboxInitial := LightboxState(false, 0)

  function Apply(s: LightboxState, c: Callback, n: nat): LightboxState
    requires n > 0
  {
    match c
    case OnClose => s.(open := false)
    case OnPrev => s.(index := PrevIndex(s.index, n))
    case OnNext => s.(index := NextIndex(s.index, n))
  }

  function ApplyAll(s: LightboxState, cs: seq<Callback>, n: nat): LightboxState
    requires n > 0
    ensures |cs| == 1 ==> ApplyAll(s, cs, n) == Apply(s, cs[0], n)
    decreases |cs|
  {
    if |cs| == 0 then s else ApplyAll(Apply(s, cs[0], n), cs[1..], n)
  }

  /** The index stays a valid image position. */
  predicate ValidLightbox(s: LightboxState, n: nat) {
    0 <= s.index < n
  }

  /** One event on a grid of `n` images. The buttons exist only while the
      lightbox is open; a figure click opens it on that image. */
  function LightboxStep(s: LightboxState, e: LightboxEvent, n: nat): (s': LightboxState)
    requires n > 0
    ensures ValidLightbox(s, n) ==> ValidLightbox(s', n)
    ensures !s.open && !e.ClickImage? ==> s' == s
    ensures e.ClickImage? && 0 <= e.i < n ==> s' == LightboxState(true, e.i)
    ensures s.open && e == KeyDown(Escape) ==> s' == s.(open := false)
    ensures s.open && e == KeyDown(ArrowLeft) ==> s' == s.(index := PrevIndex(s.index, n))
    ensures s.open && e == KeyDown(ArrowRight) ==> s' == s.(index := NextIndex(s.index, n))
    ensures e == KeyDown(OtherKey) ==> s' == s
    ensures s.open && e == CloseButton ==> s' == s.(open := false)
    ensures s.open && e == PrevButton ==> s' == s.(index := PrevIndex(s.index, n))
    ensures s.open && e == NextButton ==> s' == s.(index := NextIndex(s.index, n))
  {
    match e
    case ClickImage(i) => if 0 <= i < n then LightboxState(true, i) else s
    case KeyDown(k) => ApplyAll(s, LightboxKeyCallbacks(s.open, k), n)
    case CloseButton => if s.open then Apply(s, OnClose, n) else s
    case PrevButton => if s.open then Apply(s, OnPrev, n) else s
    case NextButton => if s.open then Apply(s, OnNext, n) else s
  }

  function LightboxRun(s: LightboxState, es: seq<LightboxEvent>, n: nat): LightboxState
    requires n > 0
    decreases |es|
  {
    if |es| == 0 then s else LightboxRun(LightboxStep(s, es[0], n), es[1..], n)
  }

  /** From any valid state, no sequence of events can make the lightbox
      show an index outside the image list. */
  lemma {:induction false} LightboxRunValid(s: LightboxState, es: seq<LightboxEvent>, n: nat)
    requires n > 0 && ValidLightbox(s, n)
    ensures ValidLightbox(LightboxRun(s, es, n), n)
    decreases |es|
  {
    if |es| > 0 {
      LightboxRunValid(LightboxStep(s, es[0], n), es[1..], n);
    }
  }

  /** In particular from the state the page starts in (closed, index 0),
      for any non-empty image list. */
  lemma LightboxFromInitial(es: seq<LightboxEvent>, n: nat)
    requires n > 0
    ensures ValidLightbox(LightboxRun(LightboxInitial, es, n), n)
  {
    LightboxRunValid(LightboxInitial, es, n);
  }

  /** The image the lightbox shows, if open. */
  function LightboxImage<T>(s: LightboxState, images: seq<T>): (r: Option<T>)
    requires ValidLightbox(s, |images|)
    ensures r.Some? <==> s.open
    ensures r.Some? ==> r.value in images
  {
    if s.open then Some(images[s.index]) else None
  }

  /* ---------------------------------------------------------------------
     Video lightbox
     --------------------------------------------------------------------- */

  /** `open` and `active` of the showreel section. */
  datatype VideoState = VideoState(open: bool, active: int)

  datatype VideoEvent = ClickReel(i: int) | VideoKeyDown(key: Key) | VideoCloseButton

  /** The callbacks of the video lightbox's keydown handler. */
  function VideoKeyCallbacks(open: bool, key: Key): (cs: seq<Callback>)
    ensures cs == [OnClose] <==> open && key == Escape
    ensures cs != [OnClose] ==> cs == []
  {
    if open && key == Escape then [OnClose] else []
  }

  /** One event over `n` reels: a reel card opens the player on that reel;
      Escape and the close button close it only while it is open. */
  function VideoStep(s: VideoState, e: VideoEvent, n: nat): (s': VideoState)
    ensures e.ClickReel? && 0 <= e.i < n ==> s' == VideoState(true, e.i)
    ensures !e.ClickReel? ==> s'.active == s.active
    ensures !e.ClickReel? && !s.open ==> s' == s
    ensures s.open && (e == VideoKeyDown(Escape) || e == VideoCloseButton) ==> !s'.open
    ensures e.VideoKeyDown? && e.key != Escape ==> s' == s
    ensures 0 <= s.active < n ==> 0 <= s'.active < n
  {
    match e
    case ClickReel(i) => if 0 <= i < n then VideoState(true, i) else s
    case VideoKeyDown(k) => if VideoKeyCallbacks(s.open, k) == [OnClose] then s.(open := false) else s
    case VideoCloseButton => if s.open then s.(open := false) else s
  }

  /** What the video lightbox renders: nothing while closed, else the active
      reel. */
  function VideoView<T>(s: VideoState, reels: seq<T>): (r: Option<T>)
    requires 0 <= s.active < |reels|
    ensures r.None? <==> !s.open
    ensures r.Some? ==> r.value == reels[s.active]
  {
    if !s.open then None else Some(reels[s.active])
  }
}
